=== FILE: README.md ===
# Dinner invitations: a Dafny model of `dinner.py`

`dinner.py` answers one question. Each guest has a list of the guests they
dislike. What is the largest group that can be invited with no two
members disliking each other? In graph terms this is a maximum independent
set of the dislike graph. The program finds it by brute force:

- `find_dislikes` collects the edges of the graph;
- `generate_all_subsets` enumerates all 2^n groups by counting in binary;
- `filter_bad_invites` removes every group that contains an edge;
- `invite_to_dinner` keeps the first of the longest surviving groups.

`invite_to_dinner_optimized` first uses `filter_no_dislikes` to split off
the guests with empty lists. It searches only the remaining guests and
appends the split-off guests at the end.

The model is split into these modules:

- `Seqs` (`seqs.dfy`): generic sequence notions used throughout. These are
  the element set, freedom from duplicates, order-preserving subsequences,
  `Filter` and removal of a first occurrence.
- `Guests` (`guests.dfy`): the input dict as `Friends(keys, adj)`. The key
  sequence records the dict's iteration order, which fixes the enumeration
  order and therefore the tie-break. It also holds `WellFormed` (what every
  Python dict satisfies), `Symmetric` and the reference predicate
  `Compatible` (nobody in the group lists anybody in it, themself included).
- `Dislikes` (`dislikes.dfy`): `find_dislikes`, with both of its loops. A
  guest who lists themself gives the edge (g, g), so no group holding that
  guest is ever good, just as dinner.py:95 rejects it.
- `Subsets` (`subsets.dfy`): `generate_all_subsets`. It is written as the
  counting loop of the source, as a method with invariants, and is proved
  equal to a recursive power-set definition `Pow`. `Pow` is proved complete
  and free of repeats.
- `Invites` (`invites.dfy`): the filtering, the selection loop, both entry
  points, and the theorems that connect them. The main theorem is that for
  symmetric input the optimized search returns a good invite of the same
  length as the naive one, and so it is also a maximum.
- `Examples` (`examples_dinner.dfy`): the docstring examples, stated about
  the model.

Where the docstrings and the code differ, the model follows the code:

- `find_dislikes` does not list each edge alphabetically (dinner.py:11). It
  keeps the orientation it meets first. `Examples.FirstOrientationKept`
  exhibits this.
- `invite_to_dinner` on the five-guest example returns Alice, Cleo, Don, Eve
  in key order. The docstring shows `['Alice', 'Eve', 'Cleo', 'Don']`
  (dinner.py:157-158), which is the result of the optimized version.
  `Examples.InviteToDinnerExample` and
  `Examples.InviteToDinnerOptimizedExample` prove both results.
- "Functions the same as invite_to_dinner" (dinner.py:174) can fail when a
  disliked guest lists nobody. Suppose Alice lists Bob and Bob lists nobody.
  Then Bob is split off as dislike-free and invited together with Alice.
  `Examples.OneSidedOptimizedIsBad` proves this. The claim does hold when
  every dislike is listed by both guests (`Symmetric`): then both results
  have the same length. It also holds, with identical results, when every
  guest lists somebody, symmetric or not (`Invites.NobodyIsolatedSameResult`).
  The length and maximality theorems about the optimized search require
  `Symmetric`, which is a sufficient condition, not a necessary one.

## Model

| member | source | states |
|---|---|---|
| Dislikes.AddDislikes | dinner.py:26-28 | The inner loop over one guest's list only adds pairs (guest, listed dislike). It never holds a pair in both orientations, and afterwards every listed dislike is paired with the guest in one orientation. |
| Dislikes.CollectDislikes | dinner.py:25-28 | The outer loop over the keys: every new edge starts at a visited key and ends at one of its listed dislikes, and every listed dislike of a visited key is covered in one orientation. |
| Dislikes.FindDislikes | dinner.py:24-29 | Each edge is a listed dislike of its first guest. Every listed dislike appears as an edge in one orientation. No pair of distinct guests appears in both orientations, so each edge appears once (dinner.py:10). |
| Dislikes.AvoidsIffCompatible | dinner.py:2-3 | A group contains no edge exactly when nobody in it lists anybody in it, themself included, so the edges are exactly the pairs that cannot be invited together. |
| Subsets.Select | dinner.py:57-62 | The group the bit loop builds for number i has no more entries than there are keys, and every entry is a key. That it is an order-preserving subsequence of the keys is `Subsets.SelectSubseq`. |
| Subsets.SelectSubseq | dinner.py:57-62 | The group built for number i lists its guests in key order. |
| Subsets.SelectBits | dinner.py:59-62 | For duplicate-free keys, key k is in the group built for i exactly when bit n-1-k of i is set. |
| Subsets.GenerateAllSubsets | dinner.py:51-65 | The counting loop yields 2^n lists. List i selects the keys whose bits are set in i, and the whole result equals the recursive power set `Pow`. |
| Subsets.SelectIsPow | dinner.py:56-63 | The group built for number i by the bit loop is entry i of the recursive power set. |
| Subsets.EntryBits | dinner.py:59-62 | For duplicate-free keys, key k is in entry i exactly when bit n-1-k of i is set. |
| Subsets.PowEntriesAreSubseqs | dinner.py:32-33 | Every entry lists a group of guests in key order. |
| Subsets.PowComplete | dinner.py:39 | Every set of keys occurs as some entry, so no combination is missed. |
| Subsets.PowUnique | dinner.py:39 | For duplicate-free keys, two different entries never hold the same group. |
| Subsets.PowEnds | dinner.py:48-49 | The first entry is empty and the last holds every key. |
| Invites.ValidInvites | dinner.py:69-70 | The surviving candidates keep their original order, and a candidate survives exactly when it contains no edge. |
| Invites.ValidInvitesCount | dinner.py:69-70 | Every candidate without an edge keeps all of its copies, and every candidate with an edge loses all of them. |
| Invites.EdgeHits | dinner.py:94-96 | The inner loop over the edge set adds only copies of the candidate, and adds at least one exactly when the candidate contains an edge. |
| Invites.CollectBadInvites | dinner.py:91-96 | Only candidates containing an edge are collected, and each one is collected at least as often as it occurs in the input. |
| Invites.RemoveCollected | dinner.py:98-100 | The removal loop leaves the input minus the collected candidates, counted with multiplicity, and never changes which good candidates remain. |
| Invites.FilterBadInvites | dinner.py:90-102 | The two loops together return exactly the candidates that contain no edge, in their original order. |
| Invites.LargestFrom | dinner.py:164-167 | The selection loop returns a candidate no shorter than the current best or than any candidate. When it replaces the best, it returns the first candidate of that length. |
| Invites.Largest | dinner.py:163-169 | Starting from the empty list, the result is as long as every candidate. It is either empty or the first candidate of its length. |
| Invites.InviteToDinner | dinner.py:160-169 | Over the good entries of the power set, the result is as long as every one of them. It is either empty or the first good entry of its length. |
| Invites.FilterNoDislikes | dinner.py:128-137 | The first result lists exactly the guests with an empty list, and the second holds exactly the others, both in key order. Together they account for every key. The reduced dict is well formed and keeps each guest's list unchanged. |
| Invites.BestEntangled | dinner.py:198-206 | The group chosen among the guests with non-empty lists is in key order, has no repeats and no edge, and is at least as large as every edge-free set of those guests. It is either empty or the first good entry of its length in the enumeration of those guests, because the loop at dinner.py:203-206 replaces only on a strictly longer group. |
| Invites.InviteToDinnerOptimized | dinner.py:198-210 | The result ends with the dislike-free guests in key order. What precedes them is exactly the reduced selection `BestEntangled`: an edge-free group of the other guests, in key order, at least as large as every edge-free set of those guests. |
| Invites.BestOfPow | dinner.py:160-169 | Over the power set of duplicate-free keys, the chosen group lists guests in key order without repeats, contains no edge, and is at least as large as every edge-free set of keys. |
| Invites.InviteToDinnerIsMaximum | dinner.py:140-146 | `invite_to_dinner` returns a group of keys in key order, with no two members disliking each other, and no such group is larger. |
| Invites.UniqueBest | dinner.py:164-167 | When exactly one edge-free set of keys has the largest size, the selection returns that set listed in key order. |
| Invites.InviteToDinnerUnique | dinner.py:160-169 | `invite_to_dinner` returns the unique largest edge-free group, in key order, whenever there is one. |
| Invites.EdgeEndsNotIsolated | dinner.py:131-133 | With symmetric lists, neither end of an edge is split off as dislike-free. |
| Invites.EdgesMissIsolated | dinner.py:131-133 | With symmetric lists, no split-off guest is an end of any edge. |
| Invites.AddOffEdgeGuests | dinner.py:208 | Appending guests that lie on no edge to an edge-free group keeps it edge-free. |
| Invites.ReducedUnionIsGood | dinner.py:198-208 | With symmetric lists, the best group of the reduced search together with the split-off guests is an edge-free set of keys. Its size is the sum of the two lengths. |
| Invites.ReducedAtLeast | dinner.py:198-210 | With symmetric lists, the optimized result is no longer than the naive one. |
| Invites.NaiveWithoutIsolated | dinner.py:198-200 | The naive result minus the split-off guests is an edge-free group of the remaining guests. It lost at most one member per split-off guest. |
| Invites.ReducedAtMost | dinner.py:198-210 | For every dict, symmetric or not, the naive result is no longer than the optimized one. |
| Invites.NobodyIsolatedSameResult | dinner.py:174-176 | When every guest lists somebody, symmetric or not, the two entry points return the same list. |
| Invites.SameLength | dinner.py:172-176 | With symmetric lists, both entry points return invite lists of the same length. |
| Invites.OptimizedIsGood | dinner.py:198-210 | With symmetric lists, the optimized result has no repeats, is drawn from the keys, and has no two members disliking each other. |
| Invites.OptimizedIsMaximum | dinner.py:172-184 | With symmetric lists, no group of keys without mutual dislikes is larger than the optimized result. |
| Examples.FindDislikesExample | dinner.py:15-21 | The three-guest dict yields exactly the edges Alice-Bob and Bob-Eve. |
| Examples.FirstOrientationKept | dinner.py:10-11 | With Bob listed before Alice, the edge is kept as (Bob, Alice), so edges are not listed alphabetically. |
| Examples.GenerateAllSubsetsExample | dinner.py:43-49 | The eight groups of Alice, Bob and Eve come out in the order the docstring shows. |
| Examples.FilterBadInvitesExample | dinner.py:80-88 | With Alice and Bob disliking each other, the six groups that do not hold both survive, in order. |
| Examples.FilterNoDislikesExample | dinner.py:118-126 | Cleo and Don are split off, and the reduced dict keeps Alice, Bob and Eve in key order. |
| Examples.InviteToDinnerExample | dinner.py:150-158 | On the five-guest dict the naive search returns Alice, Cleo, Don and Eve in key order. |
| Examples.InviteToDinnerOptimizedExample | dinner.py:188-196 | On the five-guest dict the optimized search returns Alice, Eve, Cleo and Don. |
| Examples.OneSidedOptimizedIsBad | dinner.py:198-208 | When Alice lists Bob and Bob lists nobody, the optimized search invites both of them although they form an edge. |

## Left out

- The `__main__` block (dinner.py:212 onwards) only prints results for
  sample dicts and is not modelled.
- Mutation and aliasing are not modelled; every operation is a function
  on values. `filter_bad_invites` removes entries from the caller's own
  list, because `good_invites = all_subsets` aliases it. The optimized entry
  point extends the selected candidate list in place.
- Python's set iteration order in `filter_bad_invites` is unspecified. The
  model iterates the edge set with a nondeterministic choice.
- `filter_bad_invites` calls `find_dislikes` again for every candidate
  (dinner.py:94). The model computes the edges once, which gives the same
  set each time.
- `GenerateAllSubsets` takes the key sequence (`list(friends.keys())`,
  dinner.py:51) rather than the dict. Its element type is generic.
- Guests are strings. Python allows any hashable key; the type annotations
  in the source assume strings.
- Running time is not modelled: the search is exponential in the number of
  guests.
- `Invites.EdgeHits`: states only that at least one copy is added exactly
  when the candidate contains an edge. The source adds one copy per edge;
  the count does not affect the result.
- `Invites.CollectBadInvites`: states a lower bound on how often each bad
  candidate is collected, not the exact count. Only the lower bound matters
  for the removal loop.
- `Examples.FilterNoDislikesExample`: states the keys of the reduced dict
  rather than equality with the three-guest dict. That each list is carried
  over unchanged is part of the general contract of `FilterNoDislikes`.
- The optimized search on input whose lists are not symmetric is covered
  only by the contracts of `Invites.InviteToDinnerOptimized` and
  `Invites.BestEntangled`, and by `Examples.OneSidedOptimizedIsBad`,
  `Invites.ReducedAtMost` and `Invites.NobodyIsolatedSameResult`. `SameLength`, `OptimizedIsGood` and
  `OptimizedIsMaximum` require `Symmetric`, and `Symmetric` also demands that
  every listed dislike is itself a key. The other operations and theorems,
  from `FindDislikes` to `InviteToDinnerIsMaximum`, hold for every
  well-formed dict.

=== FILE: dislikes.dfy ===
/** `find_dislikes`: the edge set of the dislike graph. Guests are visited in
    key order and each guest's list in list order; a pair is added in the
    orientation first met unless its reverse is already present. */
module Dislikes {
  import opened Seqs
  import opened Guests

  type Edge = (Guest, Guest)

  /** No pair of distinct guests occurs in both orientations. */
  predicate OneOrientation(e: set<Edge>)
  {
    forall d :: d in e && (d.1, d.0) in e ==> d.0 == d.1
  }

  /** No edge has both of its ends in `s`. */
  predicate AvoidsEdges(s: set<Guest>, e: set<Edge>)
  {
    forall d :: d in e ==> !(d.0 in s && d.1 in s)
  }

  /** The inner loop over one guest `p` and its dislike list `ds`. */
  function AddDislikes(acc: set<Edge>, p: Guest, ds: seq<Guest>): (r: set<Edge>)
    requires OneOrientation(acc)
    ensures OneOrientation(r)
    ensures acc <= r
    ensures forall e :: e in r && e !in acc ==> e.0 == p && e.1 in ds
    ensures forall d :: d in ds ==> (p, d) in r || (d, p) in r
    decreases |ds|
  {
    if |ds| == 0 then acc
    else
      var next := if (ds[0], p) in acc then acc else acc + {(p, ds[0])};
      AddDislikes(next, p, ds[1..])
  }

  /** The outer loop over the remaining keys `ks`. */
  function CollectDislikes(acc: set<Edge>, f: Friends, ks: seq<Guest>): (r: set<Edge>)
    requires OneOrientation(acc)
    requires forall k :: k in ks ==> k in f.adj
    ensures OneOrientation(r)
    ensures acc <= r
    ensures forall e :: e in r && e !in acc ==> e.0 in ks && e.1 in f.adj[e.0]
    ensures forall p, d :: p in ks && d in f.adj[p] ==> (p, d) in r || (d, p) in r
    decreases |ks|
  {
    if |ks| == 0 then acc
    else CollectDislikes(AddDislikes(acc, ks[0], f.adj[ks[0]]), f, ks[1..])
  }

  /** Sound (every edge is a listed dislike of its first guest), complete
      (every listed dislike is an edge in one orientation) and free of
      reversed duplicates. */
  function FindDislikes(f: Friends): (r: set<Edge>)
    requires WellFormed(f)
    ensures OneOrientation(r)
    ensures forall e :: e in r ==> e.0 in f.adj && e.1 in f.adj[e.0]
    ensures forall p, d :: p in f.adj && d in f.adj[p] ==> (p, d) in r || (d, p) in r
  {
    CollectDislikes({}, f, f.keys)
  }

  /** Testing a candidate against the edge set is the same as testing it
      against the adjacency lists. */
  lemma AvoidsIffCompatible(f: Friends, s: set<Guest>)
    requires WellFormed(f)
    ensures AvoidsEdges(s, FindDislikes(f)) <==> Compatible(s, f)
  {
  }
}

=== FILE: examples_dinner.dfy ===
/** The worked examples of the source's docstrings, stated about the model.

    Most examples take their dict as a parameter pinned by a precondition,
    as in `requires f == FiveGuests()`, instead of writing the literal in
    the conclusion: the verifier then works with one variable rather than
    unfolding the literal at each of its occurrences. Small helpers such as
    `JoinParts` and `PairBreaksEdge` take one step on literal lists in the
    same style, so that each proof stays small. */
module Examples {
  import opened Seqs
  import opened Guests
  import opened Dislikes
  import opened Subsets
  import opened Invites

  /** Alice, Bob and Eve, with Bob in the middle. */
  function ThreeGuests(): Friends
  {
    Friends(["Alice", "Bob", "Eve"],
            map["Alice" := ["Bob"], "Bob" := ["Alice", "Eve"], "Eve" := ["Bob"]])
  }

  /** The same three plus Cleo and Don, who dislike nobody. */
  function FiveGuests(): Friends
  {
    Friends(["Alice", "Bob", "Cleo", "Don", "Eve"],
            map["Alice" := ["Bob"], "Bob" := ["Alice", "Eve"], "Cleo" := [], "Don" := [],
                "Eve" := ["Bob"]])
  }

  lemma FindDislikesExample(f: Friends)
    requires f == ThreeGuests()
    ensures WellFormed(f)
    ensures FindDislikes(f) == {("Alice", "Bob"), ("Bob", "Eve")}
  {
    var ks := f.keys;
    var e1: set<Edge> := {("Alice", "Bob")};
    var e2: set<Edge> := {("Alice", "Bob"), ("Bob", "Eve")};
    ThreeGuestsWellFormed();
    assert f.adj[ks[0]] == ["Bob"];
    assert AddDislikes({}, "Alice", ["Bob"]) == e1;
    ThreeGuestsAfterAlice(f, e1, e2);
    assert CollectDislikes({}, f, ks) == CollectDislikes(e1, f, ks[1..]);
  }

  lemma ThreeGuestsAfterAlice(f: Friends, e1: set<Edge>, e2: set<Edge>)
    requires f == ThreeGuests()
    requires e1 == {("Alice", "Bob")} && e2 == {("Alice", "Bob"), ("Bob", "Eve")}
    ensures forall k :: k in f.keys[1..] ==> k in f.adj
    ensures OneOrientation(e1) && CollectDislikes(e1, f, f.keys[1..]) == e2
  {
    var ks := f.keys;
    assert f.adj[ks[1]] == ["Alice", "Eve"] && f.adj[ks[2]] == ["Bob"];
    BobAddsOne(e1, e2);
    assert AddDislikes(e2, "Eve", ["Bob"]) == e2;
    assert CollectDislikes(e2, f, ks[2..]) == e2;
    assert ks[1..][1..] == ks[2..];
  }

  /** The docstring's claim that edges are listed alphabetically does not
      hold: the orientation met first is kept. */
  lemma FirstOrientationKept()
    ensures var f := Friends(["Bob", "Alice"], map["Bob" := ["Alice"], "Alice" := ["Bob"]]);
            WellFormed(f) && FindDislikes(f) == {("Bob", "Alice")}
  {
  }

  lemma GenerateAllSubsetsExample()
    ensures Pow(["Alice", "Bob", "Eve"]) ==
            [[], ["Eve"], ["Bob"], ["Bob", "Eve"], ["Alice"], ["Alice", "Eve"],
             ["Alice", "Bob"], ["Alice", "Bob", "Eve"]]
  {
    var e: seq<Guest> := ["Eve"];
    assert e[1..] == [];
    var p1 := [[], ["Eve"]];
    var q1 := PrependAll("Eve", [[]]);
    assert q1[0] == ["Eve"];
    assert q1 == [q1[0]];
    assert Pow(e) == p1;
    var be: seq<Guest> := ["Bob", "Eve"];
    assert be[1..] == e;
    var q2 := PrependAll("Bob", p1);
    assert q2[0] == ["Bob"] && q2[1] == ["Bob", "Eve"];
    assert q2 == [q2[0], q2[1]];
    var p2 := [[], ["Eve"], ["Bob"], ["Bob", "Eve"]];
    assert Pow(be) == p2;
    var abe: seq<Guest> := ["Alice", "Bob", "Eve"];
    assert abe[1..] == be;
    var q3 := PrependAll("Alice", p2);
    assert q3[0] == ["Alice"] && q3[1] == ["Alice", "Eve"];
    assert q3[2] == ["Alice", "Bob"] && q3[3] == ["Alice", "Bob", "Eve"];
    assert q3 == [q3[0], q3[1], q3[2], q3[3]];
  }

  /** The docstring dict of `filter_bad_invites`: Eve dislikes nobody. */
  function PairAndEve(): Friends
  {
    Friends(["Alice", "Bob", "Eve"], map["Alice" := ["Bob"], "Bob" := ["Alice"], "Eve" := []])
  }

  lemma PairAndEveEdges()
    ensures WellFormed(PairAndEve())
    ensures FindDislikes(PairAndEve()) == {("Alice", "Bob")}
  {
    var f := PairAndEve();
    var ks := f.keys;
    var e1: set<Edge> := {("Alice", "Bob")};
    assert f.adj[ks[0]] == ["Bob"] && f.adj[ks[1]] == ["Alice"] && f.adj[ks[2]] == [];
    assert AddDislikes({}, "Alice", ["Bob"]) == e1;
    assert AddDislikes(e1, "Bob", ["Alice"]) == e1;
    assert CollectDislikes(e1, f, ks[2..]) == e1;
    assert CollectDislikes(e1, f, ks[1..]) == e1 by { assert ks[1..][1..] == ks[2..]; }
    assert CollectDislikes({}, f, ks) == CollectDislikes(e1, f, ks[1..]);
  }

  /** Filtering the eight subsets of the docstring against the one edge
      Alice-Bob keeps the six that do not hold both. */
  lemma SixOfEightSurvive(all: seq<seq<Guest>>, e: set<Edge>)
    requires all == [[], ["Eve"], ["Bob"], ["Bob", "Eve"], ["Alice"], ["Alice", "Eve"],
                     ["Alice", "Bob"], ["Alice", "Bob", "Eve"]]
    requires e == {("Alice", "Bob")}
    ensures ValidInvites(all, e) == all[..6]
  {
    var p := GoodFor(e);
    var kept := all[..6];
    var dropped := all[6..];
    assert !p(dropped[0]) by { assert "Alice" in dropped[0] && "Bob" in dropped[0]; }
    assert !p(dropped[1]) by { assert "Alice" in dropped[1] && "Bob" in dropped[1]; }
    FilterDropsAll(dropped, p);
    FilterKeepsAll(kept, p);
    FilterConcat(kept, dropped, p);
    assert all == kept + dropped;
  }

  lemma FilterBadInvitesExample()
    ensures WellFormed(PairAndEve())
    ensures ValidInvites(Pow(PairAndEve().keys), FindDislikes(PairAndEve())) ==
            [[], ["Eve"], ["Bob"], ["Bob", "Eve"], ["Alice"], ["Alice", "Eve"]]
  {
    PairAndEveEdges();
    GenerateAllSubsetsExample();
    SixOfEightSurvive(Pow(PairAndEve().keys), FindDislikes(PairAndEve()));
  }

  lemma FiveGuestsEdges()
    ensures WellFormed(FiveGuests())
    ensures FindDislikes(FiveGuests()) == {("Alice", "Bob"), ("Bob", "Eve")}
    ensures Elems(FiveGuests().keys) == {"Alice", "Bob", "Cleo", "Don", "Eve"}
  {
    var f := FiveGuests();
    var ks := f.keys;
    var e1: set<Edge> := {("Alice", "Bob")};
    var e2: set<Edge> := {("Alice", "Bob"), ("Bob", "Eve")};
    FiveGuestsWellFormed();
    assert f.adj[ks[0]] == ["Bob"];
    assert AddDislikes({}, "Alice", ["Bob"]) == e1;
    FiveGuestsAfterAlice(f, e1, e2);
    assert CollectDislikes({}, f, ks) == CollectDislikes(e1, f, ks[1..]);
  }

  /** The outer loop from Bob on: Bob adds Bob-Eve, and nobody after him
      adds anything. */
  lemma FiveGuestsAfterAlice(f: Friends, e1: set<Edge>, e2: set<Edge>)
    requires f == FiveGuests()
    requires e1 == {("Alice", "Bob")} && e2 == {("Alice", "Bob"), ("Bob", "Eve")}
    ensures forall k :: k in f.keys[1..] ==> k in f.adj
    ensures OneOrientation(e1) && CollectDislikes(e1, f, f.keys[1..]) == e2
  {
    var ks := f.keys;
    assert f.adj[ks[1]] == ["Alice", "Eve"];
    assert f.adj[ks[2]] == [] && f.adj[ks[3]] == [] && f.adj[ks[4]] == ["Bob"];
    BobAddsOne(e1, e2);
    assert AddDislikes(e2, "Eve", ["Bob"]) == e2;
    assert CollectDislikes(e2, f, ks[4..]) == e2;
    assert CollectDislikes(e2, f, ks[3..]) == e2 by { assert ks[3..][1..] == ks[4..]; }
    assert CollectDislikes(e2, f, ks[2..]) == e2 by { assert ks[2..][1..] == ks[3..]; }
    assert ks[1..][1..] == ks[2..];
  }

  /** Bob's list: Alice is already paired with him, Eve is new. */
  lemma BobAddsOne(e1: set<Edge>, e2: set<Edge>)
    requires e1 == {("Alice", "Bob")} && e2 == {("Alice", "Bob"), ("Bob", "Eve")}
    ensures OneOrientation(e1) && AddDislikes(e1, "Bob", ["Alice", "Eve"]) == e2
  {
    var ds: seq<Guest> := ["Alice", "Eve"];
    assert ds[1..] == ["Eve"];
    assert AddDislikes(e1, "Bob", ["Eve"]) == e2;
  }

  lemma ThreeGuestsWellFormed()
    ensures WellFormed(ThreeGuests())
    ensures Elems(ThreeGuests().keys) == {"Alice", "Bob", "Eve"}
  {
  }

  lemma FiveGuestsWellFormed()
    ensures WellFormed(FiveGuests())
    ensures Elems(FiveGuests().keys) == {"Alice", "Bob", "Cleo", "Don", "Eve"}
  {
  }

  /** Among Alice, Bob, Cleo, Don and Eve, with Bob disliking Alice and Eve,
      the only good group of four or more leaves Bob out. */
  lemma OnlyGroupOfFour(e: set<Edge>, s: set<Guest>)
    requires e == {("Alice", "Bob"), ("Bob", "Eve")}
    requires s <= {"Alice", "Bob", "Cleo", "Don", "Eve"} && AvoidsEdges(s, e) && |s| >= 4
    ensures s == {"Alice", "Cleo", "Don", "Eve"}
  {
    var best := {"Alice", "Cleo", "Don", "Eve"};
    if "Bob" in s {
      assert ("Alice", "Bob") in e && ("Bob", "Eve") in e;
      assert s <= {"Bob", "Cleo", "Don"};
      assert |{"Bob", "Cleo", "Don"}| == 3;
      SubsetCard(s, {"Bob", "Cleo", "Don"});
    } else {
      assert s <= best;
      assert |best| == 4;
      SubsetCard(s, best);
    }
  }

  /** The premises of the uniqueness argument for the five-guest dict:
      Alice, Cleo, Don and Eve in key order form the only good group of four. */
  lemma FiveGuestsBestIsUnique()
    ensures var t: seq<Guest> := ["Alice", "Cleo", "Don", "Eve"];
            var e: set<Edge> := {("Alice", "Bob"), ("Bob", "Eve")};
            IsSubseq(t, ["Alice", "Bob", "Cleo", "Don", "Eve"]) && AvoidsEdges(Elems(t), e) &&
            forall s :: (s <= {"Alice", "Bob", "Cleo", "Don", "Eve"} && AvoidsEdges(s, e) &&
                         |s| >= |t|) ==> s == Elems(t)
  {
    var t: seq<Guest> := ["Alice", "Cleo", "Don", "Eve"];
    var e: set<Edge> := {("Alice", "Bob"), ("Bob", "Eve")};
    assert Elems(t) == {"Alice", "Cleo", "Don", "Eve"};
    forall s | s <= {"Alice", "Bob", "Cleo", "Don", "Eve"} && AvoidsEdges(s, e) && |s| >= 4
      ensures s == {"Alice", "Cleo", "Don", "Eve"}
    {
      OnlyGroupOfFour(e, s);
    }
  }

  lemma InviteToDinnerExample()
    ensures WellFormed(FiveGuests())
    ensures InviteToDinner(FiveGuests()) == ["Alice", "Cleo", "Don", "Eve"]
  {
    FiveGuestsEdges();
    FiveGuestsBestIsUnique();
    InviteToDinnerUnique(FiveGuests(), ["Alice", "Cleo", "Don", "Eve"]);
  }

  /** Cleo and Don dislike nobody and are split off; the reduced dict keeps
      Alice, Bob and Eve in key order (with their lists unchanged, as every
      result of `FilterNoDislikes` does). */
  lemma FilterNoDislikesExample(f: Friends)
    requires f == FiveGuests()
    ensures WellFormed(f)
    ensures FilterNoDislikes(f).0 == ["Cleo", "Don"]
    ensures FilterNoDislikes(f).1.keys == ["Alice", "Bob", "Eve"]
  {
    FiveGuestsWellFormed();
    SplitByIsolation(f);
    FiveGuestsIsolated(f);
    FiveGuestsEntangled(f);
  }

  /** The two halves of `FilterNoDislikes` are the two filters of the keys. */
  lemma SplitByIsolation(f: Friends)
    requires WellFormed(f)
    ensures FilterNoDislikes(f).0 == Filter(f.keys, Isolated(f))
    ensures FilterNoDislikes(f).1.keys == Filter(f.keys, Entangled(f))
  {
  }

  lemma FiveGuestsIsolated(f: Friends)
    requires f == FiveGuests()
    ensures Filter(f.keys, Isolated(f)) == ["Cleo", "Don"]
  {
    var ks := f.keys;
    assert f.adj[ks[0]] == ["Bob"] && f.adj[ks[1]] == ["Alice", "Eve"];
    assert f.adj[ks[2]] == [] && f.adj[ks[3]] == [] && f.adj[ks[4]] == ["Bob"];
    KeepMiddleTwo(ks, Isolated(f));
  }

  lemma FiveGuestsEntangled(f: Friends)
    requires f == FiveGuests()
    ensures Filter(f.keys, Entangled(f)) == ["Alice", "Bob", "Eve"]
  {
    var ks := f.keys;
    assert f.adj[ks[0]] == ["Bob"] && f.adj[ks[1]] == ["Alice", "Eve"];
    assert f.adj[ks[2]] == [] && f.adj[ks[3]] == [] && f.adj[ks[4]] == ["Bob"];
    DropMiddleTwo(ks, Entangled(f));
  }

  /** Filtering five entries of which only the third and fourth pass. */
  lemma KeepMiddleTwo<T(!new)>(ks: seq<T>, p: T -> bool)
    requires |ks| == 5
    requires !p(ks[0]) && !p(ks[1]) && p(ks[2]) && p(ks[3]) && !p(ks[4])
    ensures Filter(ks, p) == [ks[2], ks[3]]
  {
    assert ks == ks[..2] + ks[2..4] + ks[4..];
    FilterDropsAll(ks[..2], p);
    FilterKeepsAll(ks[2..4], p);
    FilterDropsAll(ks[4..], p);
    FilterConcat(ks[..2], ks[2..4], p);
    FilterConcat(ks[..2] + ks[2..4], ks[4..], p);
  }

  /** Filtering five entries of which all but the third and fourth pass. */
  lemma DropMiddleTwo<T(!new)>(ks: seq<T>, p: T -> bool)
    requires |ks| == 5
    requires p(ks[0]) && p(ks[1]) && !p(ks[2]) && !p(ks[3]) && p(ks[4])
    ensures Filter(ks, p) == [ks[0], ks[1], ks[4]]
  {
    assert ks == ks[..2] + ks[2..4] + ks[4..];
    FilterKeepsAll(ks[..2], p);
    FilterDropsAll(ks[2..4], p);
    FilterKeepsAll(ks[4..], p);
    FilterConcat(ks[..2], ks[2..4], p);
    FilterConcat(ks[..2] + ks[2..4], ks[4..], p);
  }

  /** Among Alice, Bob and Eve with Bob disliking both others, the only good
      pair leaves Bob out. */
  lemma OnlyPair(e: set<Edge>, s: set<Guest>)
    requires e == {("Alice", "Bob"), ("Bob", "Eve")}
    requires s <= {"Alice", "Bob", "Eve"} && AvoidsEdges(s, e) && |s| >= 2
    ensures s == {"Alice", "Eve"}
  {
    assert ("Alice", "Bob") in e && ("Bob", "Eve") in e;
    if "Bob" in s {
      assert s <= {"Bob"};
      SubsetCard(s, {"Bob"});
    } else {
      assert s <= {"Alice", "Eve"};
      SubsetCard(s, {"Alice", "Eve"});
    }
  }

  lemma ThreeGuestsBestIsUnique(ks: seq<Guest>, e: set<Edge>, t: seq<Guest>)
    requires ks == ["Alice", "Bob", "Eve"] && t == ["Alice", "Eve"]
    requires e == {("Alice", "Bob"), ("Bob", "Eve")}
    ensures Distinct(ks) && IsSubseq(t, ks) && AvoidsEdges(Elems(t), e)
    ensures forall s :: s <= Elems(ks) && AvoidsEdges(s, e) && |s| >= |t| ==> s == Elems(t)
  {
    assert Elems(t) == {"Alice", "Eve"};
    assert Elems(ks) == {"Alice", "Bob", "Eve"};
    assert IsSubseq(t, ks) by {
      assert t[1..] == ["Eve"] && ks[1..] == ["Bob", "Eve"] && ks[1..][1..] == ["Eve"];
      assert IsSubseq(t[1..], ks[1..][1..]);
    }
    forall s | s <= Elems(ks) && AvoidsEdges(s, e) && |s| >= |t|
      ensures s == Elems(t)
    {
      OnlyPair(e, s);
    }
  }

  /** The reduced search finds Alice and Eve among the three who dislike
      somebody, then appends Cleo and Don: the same four guests as the full
      search, in a different order. */
  lemma InviteToDinnerOptimizedExample(f: Friends)
    requires f == FiveGuests()
    ensures WellFormed(f)
    ensures InviteToDinnerOptimized(f) == ["Alice", "Eve", "Cleo", "Don"]
  {
    FilterNoDislikesExample(f);
    BestEntangledExample(f);
    JoinParts(BestEntangled(f), FilterNoDislikes(f).0, InviteToDinnerOptimized(f));
  }

  /** Concatenating the two literal parts of the optimized result. */
  lemma JoinParts(b: seq<Guest>, iso: seq<Guest>, r: seq<Guest>)
    requires b == ["Alice", "Eve"] && iso == ["Cleo", "Don"] && r == b + iso
    ensures r == ["Alice", "Eve", "Cleo", "Don"]
  {
  }

  lemma BestEntangledExample(f: Friends)
    requires f == FiveGuests()
    ensures WellFormed(f)
    ensures BestEntangled(f) == ["Alice", "Eve"]
  {
    FilterNoDislikesExample(f);
    FiveGuestsEdges();
    var ks := FilterNoDislikes(f).1.keys;
    var e := FindDislikes(f);
    var t: seq<Guest> := ["Alice", "Eve"];
    ThreeGuestsBestIsUnique(ks, e, t);
    UniqueBest(ks, e, t);
  }

  /** A one-sided dislike: Alice lists Bob, Bob lists nobody. */
  function OneSided(): Friends
  {
    Friends(["Alice", "Bob"], map["Alice" := ["Bob"], "Bob" := []])
  }

  lemma OneSidedEdges(f: Friends)
    requires f == OneSided()
    ensures WellFormed(f)
    ensures FindDislikes(f) == {("Alice", "Bob")}
  {
    var ks := f.keys;
    var e1: set<Edge> := {("Alice", "Bob")};
    assert f.adj[ks[0]] == ["Bob"] && f.adj[ks[1]] == [];
    assert AddDislikes({}, "Alice", ["Bob"]) == e1;
    assert CollectDislikes(e1, f, ks[1..]) == e1;
    assert CollectDislikes({}, f, ks) == CollectDislikes(e1, f, ks[1..]);
  }

  /** Bob, whose list is empty, is split off although Alice dislikes him. */
  lemma OneSidedSplit(f: Friends)
    requires f == OneSided()
    ensures WellFormed(f)
    ensures FilterNoDislikes(f).0 == ["Bob"] && FilterNoDislikes(f).1.keys == ["Alice"]
  {
    OneSidedEdges(f);
    SplitByIsolation(f);
    var ks := f.keys;
    assert f.adj[ks[0]] == ["Bob"] && f.adj[ks[1]] == [];
    FilterStepTwo(ks, Isolated(f));
    FilterStepTwo(ks, Entangled(f));
  }

  /** Filtering a two-entry list. */
  lemma FilterStepTwo<T(!new)>(ks: seq<T>, p: T -> bool)
    requires |ks| == 2
    ensures Filter(ks, p) == (if p(ks[0]) then [ks[0]] else []) + (if p(ks[1]) then [ks[1]] else [])
  {
    assert ks[1..][1..] == [];
  }

  /** Without symmetric lists the reduced search is wrong: it invites Alice
      and Bob together, although they form an edge. */
  lemma OneSidedOptimizedIsBad(f: Friends)
    requires f == OneSided()
    ensures WellFormed(f)
    ensures InviteToDinnerOptimized(f) == ["Alice", "Bob"]
    ensures !AvoidsEdges(Elems(InviteToDinnerOptimized(f)), FindDislikes(f))
  {
    OneSidedSplit(f);
    OneSidedBest(f);
    OneSidedEdges(f);
    PairBreaksEdge(BestEntangled(f), FilterNoDislikes(f).0, InviteToDinnerOptimized(f), FindDislikes(f));
  }

  /** Alice followed by Bob holds the edge between them. */
  lemma PairBreaksEdge(b: seq<Guest>, iso: seq<Guest>, r: seq<Guest>, e: set<Edge>)
    requires b == ["Alice"] && iso == ["Bob"] && r == b + iso && e == {("Alice", "Bob")}
    ensures r == ["Alice", "Bob"] && !AvoidsEdges(Elems(r), e)
  {
    assert "Alice" in r && "Bob" in r;
  }

  lemma OneSidedBest(f: Friends)
    requires f == OneSided()
    ensures WellFormed(f)
    ensures BestEntangled(f) == ["Alice"]
  {
    OneSidedSplit(f);
    OneSidedEdges(f);
    var ks := FilterNoDislikes(f).1.keys;
    var e := FindDislikes(f);
    var t: seq<Guest> := ["Alice"];
    OnlyAlice(ks, e, t);
    UniqueBest(ks, e, t);
  }

  lemma OnlyAlice(ks: seq<Guest>, e: set<Edge>, t: seq<Guest>)
    requires ks == ["Alice"] && t == ["Alice"] && e == {("Alice", "Bob")}
    ensures Distinct(ks) && IsSubseq(t, ks) && AvoidsEdges(Elems(t), e)
    ensures forall s :: s <= Elems(ks) && AvoidsEdges(s, e) && |s| >= |t| ==> s == Elems(t)
  {
    assert IsSubseq(t[1..], ks[1..]);
    assert Elems(ks) == {"Alice"};
    forall s | s <= Elems(ks) && AvoidsEdges(s, e) && |s| >= |t|
      ensures s == Elems(t)
    {
      SubsetCard(s, {"Alice"});
    }
  }
}

=== FILE: guests.dfy ===
/** The input of every operation: a Python dict from each guest to the list
    of guests they dislike. The dict's iteration order matters (it fixes the
    enumeration order of subsets and hence the tie-break), so it is kept as an
    explicit key sequence next to the map. */
module Guests {
  import opened Seqs

  type Guest = string

  datatype Friends = Friends(keys: seq<Guest>, adj: map<Guest, seq<Guest>>)

  /** Every Python dict satisfies this: keys are unique and the map's domain
      is exactly the set of keys. */
  predicate WellFormed(f: Friends)
  {
    Distinct(f.keys) && f.adj.Keys == Elems(f.keys)
  }

  /** Every listed dislike names a guest of the dict, and is listed back by
      that guest. */
  predicate Symmetric(f: Friends)
  {
    forall p, d :: p in f.adj && d in f.adj[p] ==> d in f.adj && p in f.adj[d]
  }

  /** A guest whose dislike list is empty. */
  predicate IsIsolated(f: Friends, k: Guest)
  {
    k in f.adj && f.adj[k] == []
  }

  /** Reference notion of a good invite, read directly off the adjacency
      lists: nobody in `s` lists anybody in `s` as a dislike, themself
      included. */
  ghost predicate Compatible(s: set<Guest>, f: Friends)
  {
    forall x, y :: x in s && y in s && x in f.adj ==> y !in f.adj[x]
  }
}

=== FILE: invites.dfy ===
/** `filter_bad_invites`, `filter_no_dislikes`, `invite_to_dinner` and
    `invite_to_dinner_optimized`, and the theorem that the two entry points
    agree on the size of the invite list for symmetric input. */
module Invites {
  import opened Seqs
  import opened Guests
  import opened Dislikes
  import opened Subsets

  /** The candidates of `subs` that contain no edge of `e`, in their
      original order. */
  function ValidInvites(subs: seq<seq<Guest>>, e: set<Edge>): (r: seq<seq<Guest>>)
    ensures IsSubseq(r, subs)
    ensures forall s :: s in r <==> s in subs && AvoidsEdges(Elems(s), e)
  {
    Filter(subs, GoodFor(e))
  }

  /** Every good candidate keeps all its copies, and no bad one survives. */
  lemma ValidInvitesCount(subs: seq<seq<Guest>>, e: set<Edge>)
    ensures forall s :: multiset(ValidInvites(subs, e))[s] ==
                        if AvoidsEdges(Elems(s), e) then multiset(subs)[s] else 0
  {
    FilterCount(subs, GoodFor(e));
  }

  /** The test a candidate must pass: it holds no edge of `e`. */
  function GoodFor(e: set<Edge>): seq<Guest> -> bool
  {
    s => AvoidsEdges(Elems(s), e)
  }

  /** One copy of `s` per edge of `e` that has both ends in `s`; the edge
      set is iterated in an unspecified order. */
  method EdgeHits(s: seq<Guest>, e: set<Edge>) returns (hits: seq<seq<Guest>>)
    ensures forall h :: h in hits ==> h == s
    ensures |hits| > 0 <==> !AvoidsEdges(Elems(s), e)
  {
    hits := [];
    var rest := e;
    while rest != {}
      invariant rest <= e
      invariant forall h :: h in hits ==> h == s
      invariant |hits| > 0 <==> exists d :: d in e && d !in rest && d.0 in s && d.1 in s
      decreases rest
    {
      var d :| d in rest;
      if d.0 in s && d.1 in s {
        hits := hits + [s];
      }
      rest := rest - {d};
    }
  }

  /** The source's first loop: every candidate that contains an edge, at
      least as often as it occurs in `allSubsets`. */
  method CollectBadInvites(allSubsets: seq<seq<Guest>>, e: set<Edge>) returns (bad: seq<seq<Guest>>)
    ensures forall b :: b in bad ==> !AvoidsEdges(Elems(b), e)
    ensures forall s :: !AvoidsEdges(Elems(s), e) ==> multiset(allSubsets)[s] <= multiset(bad)[s]
  {
    bad := [];
    var i := 0;
    while i < |allSubsets|
      invariant 0 <= i <= |allSubsets|
      invariant forall b :: b in bad ==> !AvoidsEdges(Elems(b), e)
      invariant forall s :: !AvoidsEdges(Elems(s), e) ==> multiset(allSubsets[..i])[s] <= multiset(bad)[s]
    {
      var s := allSubsets[i];
      var hits := EdgeHits(s, e);
      assert !AvoidsEdges(Elems(s), e) ==> multiset(hits)[s] > 0 by {
        if |hits| > 0 {
          assert hits[0] in hits;
        }
      }
      bad := bad + hits;
      assert allSubsets[..i + 1] == allSubsets[..i] + [s];
      i := i + 1;
    }
    assert allSubsets[..i] == allSubsets;
  }

  /** The source's second loop: remove the first remaining occurrence of
      each collected candidate. Removing a bad candidate never changes which
      good candidates remain. */
  method RemoveCollected(allSubsets: seq<seq<Guest>>, bad: seq<seq<Guest>>, e: set<Edge>)
    returns (good: seq<seq<Guest>>)
    requires forall b :: b in bad ==> !AvoidsEdges(Elems(b), e)
    ensures ValidInvites(good, e) == ValidInvites(allSubsets, e)
    ensures multiset(good) == multiset(allSubsets) - multiset(bad)
  {
    good := allSubsets;
    var k := 0;
    while k < |bad|
      invariant 0 <= k <= |bad|
      invariant ValidInvites(good, e) == ValidInvites(allSubsets, e)
      invariant multiset(good) == multiset(allSubsets) - multiset(bad[..k])
    {
      var b := bad[k];
      RemoveCount(good, allSubsets, bad, k);
      if b in good {
        DropBadInvite(good, b, e);
        good := RemoveFirst(good, b);
      }
      k := k + 1;
    }
    assert bad[..k] == bad;
  }

  /** One turn of the removal loop keeps the count invariant. */
  lemma RemoveCount<T>(good: seq<T>, allSubsets: seq<T>, bad: seq<T>, k: nat)
    requires k < |bad|
    requires multiset(good) == multiset(allSubsets) - multiset(bad[..k])
    ensures var next := if bad[k] in good then RemoveFirst(good, bad[k]) else good;
            multiset(next) == multiset(allSubsets) - multiset(bad[..k + 1])
  {
    var b := bad[k];
    assert multiset(bad[..k + 1]) == multiset(bad[..k]) + multiset{b} by {
      assert bad[..k + 1] == bad[..k] + [b];
    }
    SubtractOneMore(multiset(good), multiset(allSubsets), multiset(bad[..k]), b);
  }

  lemma DropBadInvite(good: seq<seq<Guest>>, b: seq<Guest>, e: set<Edge>)
    requires !AvoidsEdges(Elems(b), e)
    ensures ValidInvites(RemoveFirst(good, b), e) == ValidInvites(good, e)
  {
    FilterRemoveRejected(good, b, GoodFor(e));
  }

  /** The whole of `filter_bad_invites`: collect the bad candidates, then
      remove them; exactly the good candidates remain, in order. */
  method FilterBadInvites(allSubsets: seq<seq<Guest>>, f: Friends) returns (good: seq<seq<Guest>>)
    requires WellFormed(f)
    ensures good == ValidInvites(allSubsets, FindDislikes(f))
  {
    var e := FindDislikes(f);
    var bad := CollectBadInvites(allSubsets, e);
    good := RemoveCollected(allSubsets, bad, e);
    forall s | s in good
      ensures AvoidsEdges(Elems(s), e)
    {
      assert multiset(good)[s] > 0;
    }
    FilterKeepsAll(good, GoodFor(e));
  }

  /** The selection loop from the current best `best` on: a candidate
      replaces the best only when strictly longer, so the earliest of the
      longest candidates wins. */
  function LargestFrom(best: seq<Guest>, subs: seq<seq<Guest>>): (r: seq<Guest>)
    ensures |best| <= |r|
    ensures forall s :: s in subs ==> |s| <= |r|
    ensures r == best ||
            exists k :: 0 <= k < |subs| && subs[k] == r && |best| < |r| &&
                        forall j :: 0 <= j < k ==> |subs[j]| < |r|
    decreases |subs|
  {
    if |subs| == 0 then best
    else
      var next := if |subs[0]| > |best| then subs[0] else best;
      var r := LargestFrom(next, subs[1..]);
      assert r != next ==> exists k :: 0 <= k < |subs| && subs[k] == r && |best| < |r| &&
                                      forall j :: 0 <= j < k ==> |subs[j]| < |r| by {
        if r != next {
          var k' :| 0 <= k' < |subs[1..]| && subs[1..][k'] == r && |next| < |r| &&
                    forall j :: 0 <= j < k' ==> |subs[1..][j]| < |r|;
          assert subs[k' + 1] == r;
          forall j | 0 <= j < k' + 1
            ensures |subs[j]| < |r|
          {
            if j > 0 {
              assert subs[j] == subs[1..][j - 1];
            }
          }
        }
      }
      assert forall s :: s in subs ==> s == subs[0] || s in subs[1..];
      r
  }

  /** The longest candidate, the earliest one among equally long ones;
      empty when every candidate is empty. */
  function Largest(subs: seq<seq<Guest>>): (r: seq<Guest>)
    ensures forall s :: s in subs ==> |s| <= |r|
    ensures r == [] ||
            exists k :: 0 <= k < |subs| && subs[k] == r &&
                        forall j :: 0 <= j < k ==> |subs[j]| < |r|
  {
    LargestFrom([], subs)
  }

  /** Naive entry point: the longest good candidate among all subsets. */
  function InviteToDinner(f: Friends): (r: seq<Guest>)
    requires WellFormed(f)
    ensures var good := ValidInvites(Pow(f.keys), FindDislikes(f));
            (forall s :: s in good ==> |s| <= |r|) &&
            (r == [] ||
             exists k :: 0 <= k < |good| && good[k] == r &&
                         forall j :: 0 <= j < k ==> |good[j]| < |r|)
  {
    Largest(ValidInvites(Pow(f.keys), FindDislikes(f)))
  }

  /** The two tests `filter_no_dislikes` splits the keys by. */
  function Isolated(f: Friends): Guest -> bool
  {
    k => IsIsolated(f, k)
  }

  function Entangled(f: Friends): Guest -> bool
  {
    k => !IsIsolated(f, k)
  }

  /** Splits the keys into the isolated guests (empty dislike list) and a
      dict of the others with their lists unchanged, both in key order. */
  function FilterNoDislikes(f: Friends): (r: (seq<Guest>, Friends))
    requires WellFormed(f)
    ensures IsSubseq(r.0, f.keys) && IsSubseq(r.1.keys, f.keys)
    ensures forall k :: k in r.0 <==> k in f.adj && f.adj[k] == []
    ensures forall k :: k in r.1.keys <==> k in f.adj && f.adj[k] != []
    ensures |r.0| + |r.1.keys| == |f.keys|
    ensures WellFormed(r.1) && Distinct(r.0)
    ensures forall k :: k in r.1.adj ==> r.1.adj[k] == f.adj[k]
  {
    var isolated := Filter(f.keys, Isolated(f));
    var others := Filter(f.keys, Entangled(f));
    SubseqDistinct(isolated, f.keys);
    SubseqDistinct(others, f.keys);
    FilterSplitLength(f.keys, Isolated(f), Entangled(f));
    (isolated, Friends(others, map k | k in Elems(others) :: f.adj[k]))
  }

  /** Reduced entry point: the longest good candidate over the non-isolated
      guests (tested against the edges of the whole dict), followed by the
      isolated guests. */
  function InviteToDinnerOptimized(f: Friends): (r: seq<Guest>)
    requires WellFormed(f)
    ensures var split := FilterNoDislikes(f);
            var e := FindDislikes(f);
            |split.0| <= |r| && r[|r| - |split.0|..] == split.0 &&
            var head := r[..|r| - |split.0|];
            head == BestEntangled(f) &&
            IsSubseq(head, split.1.keys) && AvoidsEdges(Elems(head), e) &&
            forall s :: s <= Elems(split.1.keys) && AvoidsEdges(s, e) ==> |s| <= |head|
  {
    var best := BestEntangled(f);
    var iso := FilterNoDislikes(f).0;
    assert (best + iso)[..|best|] == best;
    assert (best + iso)[|best|..] == iso;
    best + iso
  }

  /** The selection over the non-isolated guests only: a good group of
      them in key order, at least as large as every good set of them, and
      the first such group in enumeration order. */
  function BestEntangled(f: Friends): (r: seq<Guest>)
    requires WellFormed(f)
    ensures var others := FilterNoDislikes(f).1.keys;
            var e := FindDislikes(f);
            IsSubseq(r, others) && Distinct(r) && AvoidsEdges(Elems(r), e) &&
            forall s :: s <= Elems(others) && AvoidsEdges(s, e) ==> |s| <= |r|
    ensures var good := ValidInvites(Pow(FilterNoDislikes(f).1.keys), FindDislikes(f));
            r == [] ||
            exists k :: 0 <= k < |good| && good[k] == r &&
                        forall j :: 0 <= j < k ==> |good[j]| < |r|
  {
    BestOfPow(FilterNoDislikes(f).1.keys, FindDislikes(f));
    Largest(ValidInvites(Pow(FilterNoDislikes(f).1.keys), FindDislikes(f)))
  }

  /** The best good entry of the power set of duplicate-free `ks` is a good
      subsequence of `ks` at least as large as every good set of keys. */
  lemma BestOfPow(ks: seq<Guest>, e: set<Edge>)
    requires Distinct(ks)
    ensures var r := Largest(ValidInvites(Pow(ks), e));
            IsSubseq(r, ks) && Distinct(r) && AvoidsEdges(Elems(r), e) &&
            forall s :: s <= Elems(ks) && AvoidsEdges(s, e) ==> |s| <= |r|
  {
    var r := Largest(ValidInvites(Pow(ks), e));
    BestIsGood(ks, e);
    SubseqDistinct(r, ks);
    forall s | s <= Elems(ks) && AvoidsEdges(s, e)
      ensures |s| <= |r|
    {
      GoodSetBounded(ks, e, s);
    }
  }

  /** The chosen entry is one of the good entries, or the empty list. */
  lemma BestIsGood(ks: seq<Guest>, e: set<Edge>)
    ensures var r := Largest(ValidInvites(Pow(ks), e));
            IsSubseq(r, ks) && AvoidsEdges(Elems(r), e)
  {
    var all := Pow(ks);
    var good := ValidInvites(all, e);
    var r := Largest(good);
    PowEntriesAreSubseqs(ks);
    PowEnds(ks);
    assert AvoidsEdges(Elems(all[0]), e);
    assert [] in good;
    if r != [] {
      assert r in good;
    }
  }

  /** Every good set of keys is some good entry, so it is no larger than the
      chosen one. */
  lemma GoodSetBounded(ks: seq<Guest>, e: set<Edge>, s: set<Guest>)
    requires Distinct(ks)
    requires s <= Elems(ks) && AvoidsEdges(s, e)
    ensures |s| <= |Largest(ValidInvites(Pow(ks), e))|
  {
    var all := Pow(ks);
    var good := ValidInvites(all, e);
    PowComplete(ks, s);
    var i :| 0 <= i < |all| && Elems(all[i]) == s;
    assert all[i] in good;
    PowEntriesAreSubseqs(ks);
    SubseqDistinct(all[i], ks);
    DistinctCard(all[i]);
  }

  /** `invite_to_dinner` returns a maximum independent set of the dislike
      graph, as a subsequence of the keys. */
  lemma InviteToDinnerIsMaximum(f: Friends)
    requires WellFormed(f)
    ensures var r := InviteToDinner(f);
            IsSubseq(r, f.keys) && Distinct(r) && Compatible(Elems(r), f) &&
            forall s :: s <= Elems(f.keys) && Compatible(s, f) ==> |s| <= |r|
  {
    var e := FindDislikes(f);
    BestOfPow(f.keys, e);
    AvoidsIffCompatible(f, Elems(InviteToDinner(f)));
    forall s | s <= Elems(f.keys) && Compatible(s, f)
      ensures |s| <= |InviteToDinner(f)|
    {
      AvoidsIffCompatible(f, s);
    }
  }

  /** With symmetric lists, no isolated guest is an end of an edge. */
  lemma EdgesMissIsolated(f: Friends)
    requires WellFormed(f) && Symmetric(f)
    ensures forall d :: d in FindDislikes(f) ==>
              d.0 !in FilterNoDislikes(f).0 && d.1 !in FilterNoDislikes(f).0
  {
    var iso := FilterNoDislikes(f).0;
    forall d | d in FindDislikes(f)
      ensures d.0 !in iso && d.1 !in iso
    {
      EdgeEndsNotIsolated(f, d);
    }
  }

  /** Both ends of an edge have a non-empty list when the lists are
      symmetric, so neither is split off as isolated. */
  lemma EdgeEndsNotIsolated(f: Friends, d: Edge)
    requires WellFormed(f) && Symmetric(f)
    requires d in FindDislikes(f)
    ensures d.0 !in FilterNoDislikes(f).0 && d.1 !in FilterNoDislikes(f).0
  {
    assert d.1 in f.adj[d.0];
    assert d.0 in f.adj[d.1];
  }

  /** Adding guests that lie on no edge keeps a set good. */
  lemma AddOffEdgeGuests(s: set<Guest>, extra: set<Guest>, e: set<Edge>)
    requires AvoidsEdges(s, e)
    requires forall d :: d in e ==> d.0 !in extra && d.1 !in extra
    ensures AvoidsEdges(s + extra, e)
  {
  }

  /** The best entangled choice plus every isolated guest is a good set of
      keys, so the naive search finds one at least as large. */
  lemma ReducedAtLeast(f: Friends)
    requires WellFormed(f) && Symmetric(f)
    ensures |BestEntangled(f)| + |FilterNoDislikes(f).0| <= |InviteToDinner(f)|
  {
    var up := Elems(BestEntangled(f)) + Elems(FilterNoDislikes(f).0);
    ReducedUnionIsGood(f);
    BestOfPow(f.keys, FindDislikes(f));
    assert |up| <= |InviteToDinner(f)|;
  }

  /** The set behind the reduced result: a good set of keys with one member
      per guest of the result. */
  lemma ReducedUnionIsGood(f: Friends)
    requires WellFormed(f) && Symmetric(f)
    ensures var up := Elems(BestEntangled(f)) + Elems(FilterNoDislikes(f).0);
            up <= Elems(f.keys) && AvoidsEdges(up, FindDislikes(f)) &&
            |up| == |BestEntangled(f)| + |FilterNoDislikes(f).0|
  {
    var e := FindDislikes(f);
    var split := FilterNoDislikes(f);
    var iso := split.0;
    var others := split.1.keys;
    var b := BestEntangled(f);
    BestOfPow(others, e);
    SubseqElems(b, others);
    var up := Elems(b) + Elems(iso);
    assert Elems(b) !! Elems(iso);
    assert |up| == |b| + |iso| by {
      DistinctCard(b);
      DistinctCard(iso);
    }
    assert AvoidsEdges(up, e) by {
      EdgesMissIsolated(f);
      AddOffEdgeGuests(Elems(b), Elems(iso), e);
    }
    assert up <= Elems(f.keys) by {
      SubseqElems(others, f.keys);
      SubseqElems(iso, f.keys);
    }
  }

  /** The naive result without its isolated guests is a good set of
      entangled guests, so the reduced search finds one at least as large. */
  lemma ReducedAtMost(f: Friends)
    requires WellFormed(f)
    ensures |InviteToDinner(f)| <= |BestEntangled(f)| + |FilterNoDislikes(f).0|
  {
    var split := FilterNoDislikes(f);
    var down := Elems(InviteToDinner(f)) - Elems(split.0);
    NaiveWithoutIsolated(f);
    GoodSetBounded(split.1.keys, FindDislikes(f), down);
  }

  /** The set behind the naive result, minus the isolated guests: a good set
      of entangled guests that lost at most one member per isolated guest. */
  lemma NaiveWithoutIsolated(f: Friends)
    requires WellFormed(f)
    ensures var split := FilterNoDislikes(f);
            var down := Elems(InviteToDinner(f)) - Elems(split.0);
            down <= Elems(split.1.keys) && AvoidsEdges(down, FindDislikes(f)) &&
            |InviteToDinner(f)| <= |down| + |split.0|
  {
    var e := FindDislikes(f);
    var split := FilterNoDislikes(f);
    var iso := Elems(split.0);
    var a := InviteToDinner(f);
    BestOfPow(f.keys, e);
    SubseqElems(a, f.keys);
    var down := Elems(a) - iso;
    assert down <= Elems(split.1.keys);
    assert |Elems(a)| <= |down| + |iso| by {
      assert Elems(a) <= down + iso;
    }
    DistinctCard(a);
    DistinctCard(split.0);
  }

  /** For symmetric input the reduced search loses nothing: isolated guests
      lie on no edge, so both entry points return invite lists of the same
      length. */
  lemma SameLength(f: Friends)
    requires WellFormed(f) && Symmetric(f)
    ensures |InviteToDinnerOptimized(f)| == |InviteToDinner(f)|
  {
    ReducedAtLeast(f);
    ReducedAtMost(f);
  }

  /** When every guest lists somebody, nobody is split off, and the two
      entry points return the same list whether or not the lists are
      symmetric. */
  lemma NobodyIsolatedSameResult(f: Friends)
    requires WellFormed(f)
    requires forall k :: k in f.adj ==> f.adj[k] != []
    ensures InviteToDinnerOptimized(f) == InviteToDinner(f)
  {
    FilterKeepsAll(f.keys, Entangled(f));
    FilterDropsAll(f.keys, Isolated(f));
  }

  /** For symmetric input the reduced entry point returns a good invite
      list: duplicate-free, drawn from the keys, and with no two guests
      disliking each other. */
  lemma OptimizedIsGood(f: Friends)
    requires WellFormed(f) && Symmetric(f)
    ensures var r := InviteToDinnerOptimized(f);
            Distinct(r) && Elems(r) <= Elems(f.keys) && Compatible(Elems(r), f)
  {
    var e := FindDislikes(f);
    var split := FilterNoDislikes(f);
    var iso := split.0;
    var others := split.1.keys;
    var b := BestEntangled(f);
    var r := InviteToDinnerOptimized(f);
    BestOfPow(others, e);
    SubseqElems(b, others);
    assert Elems(b) !! Elems(iso);
    assert r == b + iso;
    ElemsConcat(b, iso);
    assert Elems(r) <= Elems(f.keys) by {
      SubseqElems(others, f.keys);
      SubseqElems(iso, f.keys);
    }
    assert AvoidsEdges(Elems(r), e) by {
      EdgesMissIsolated(f);
      AddOffEdgeGuests(Elems(b), Elems(iso), e);
    }
    AvoidsIffCompatible(f, Elems(r));
    DistinctConcat(b, iso);
  }

  /** For symmetric input the reduced entry point returns a maximum
      independent set, just as the naive one does. */
  lemma OptimizedIsMaximum(f: Friends)
    requires WellFormed(f) && Symmetric(f)
    ensures var r := InviteToDinnerOptimized(f);
            forall s :: s <= Elems(f.keys) && Compatible(s, f) ==> |s| <= |r|
  {
    InviteToDinnerIsMaximum(f);
    SameLength(f);
  }

  /** When exactly one good set of keys has the largest size, the selection
      returns that set, listed in key order. */
  lemma UniqueBest(ks: seq<Guest>, e: set<Edge>, t: seq<Guest>)
    requires Distinct(ks) && IsSubseq(t, ks) && AvoidsEdges(Elems(t), e)
    requires forall s :: s <= Elems(ks) && AvoidsEdges(s, e) && |s| >= |t| ==> s == Elems(t)
    ensures Largest(ValidInvites(Pow(ks), e)) == t
  {
    var r := Largest(ValidInvites(Pow(ks), e));
    BestOfPow(ks, e);
    SubseqElems(t, ks);
    SubseqElems(r, ks);
    SubseqDistinct(t, ks);
    DistinctCard(t);
    DistinctCard(r);
    assert Elems(r) == Elems(t);
    SubseqUnique(r, t, ks);
  }

  /** `invite_to_dinner` returns the unique largest good set, in key order,
      whenever there is one. */
  lemma InviteToDinnerUnique(f: Friends, t: seq<Guest>)
    requires WellFormed(f)
    requires IsSubseq(t, f.keys) && AvoidsEdges(Elems(t), FindDislikes(f))
    requires forall s :: s <= Elems(f.keys) && AvoidsEdges(s, FindDislikes(f)) && |s| >= |t| ==> s == Elems(t)
    ensures InviteToDinner(f) == t
  {
    UniqueBest(f.keys, FindDislikes(f), t);
  }
}

=== FILE: seqs.dfy ===
/** Generic facts about sequences used as ordered lists: the set of their
    elements, distinctness, order-preserving subsequences, filtering and
    removal of the first occurrence of a value. */
module Seqs {

  /** The elements of `s`, forgetting order and multiplicity. */
  function Elems<T>(s: seq<T>): set<T>
  {
    set x | x in s
  }

  /** No value occurs twice in `s`. */
  predicate Distinct<T(==)>(s: seq<T>)
  {
    forall i, j :: 0 <= i < j < |s| ==> s[i] != s[j]
  }

  /** `s` is obtained from `t` by deleting some entries, keeping the order of the rest. */
  predicate IsSubseq<T(==)>(s: seq<T>, t: seq<T>)
    decreases |t|
  {
    |s| == 0 ||
    (|t| > 0 && ((s[0] == t[0] && IsSubseq(s[1..], t[1..])) || IsSubseq(s, t[1..])))
  }

  /** The entries of `s` that satisfy `p`, in their original order. */
  function Filter<T(!new)>(s: seq<T>, p: T -> bool): (r: seq<T>)
    ensures IsSubseq(r, s)
    ensures forall x :: x in r <==> x in s && p(x)
    ensures |r| <= |s|
    decreases |s|
  {
    if |s| == 0 then []
    else
      var rest := Filter(s[1..], p);
      if p(s[0]) then
        assert ([s[0]] + rest)[1..] == rest;
        [s[0]] + rest
      else rest
  }

  /** `Filter` keeps every copy of an accepted entry and no copy of a
      rejected one. */
  lemma {:induction false} FilterCount<T(!new)>(s: seq<T>, p: T -> bool)
    ensures forall x :: multiset(Filter(s, p))[x] == if p(x) then multiset(s)[x] else 0
    decreases |s|
  {
    if |s| > 0 {
      FilterCount(s[1..], p);
      assert s == [s[0]] + s[1..];
    }
  }

  /** Deletes the first occurrence of `v` from `xs`; `xs` is unchanged when
      `v` does not occur. */
  function RemoveFirst<T(==)>(xs: seq<T>, v: T): (r: seq<T>)
    ensures multiset(r) == multiset(xs) - multiset{v}
    decreases |xs|
  {
    if |xs| == 0 then []
    else
      assert xs == [xs[0]] + xs[1..];
      if xs[0] == v then xs[1..]
      else [xs[0]] + RemoveFirst(xs[1..], v)
  }

  lemma {:induction false} SubseqElems<T>(s: seq<T>, t: seq<T>)
    requires IsSubseq(s, t)
    ensures Elems(s) <= Elems(t)
    decreases |t|
  {
    if |s| == 0 {
    } else if s[0] == t[0] && IsSubseq(s[1..], t[1..]) {
      SubseqElems(s[1..], t[1..]);
      assert s == [s[0]] + s[1..];
      assert t == [t[0]] + t[1..];
      assert Elems(s) == {s[0]} + Elems(s[1..]);
      assert Elems(t) == {t[0]} + Elems(t[1..]);
    } else {
      SubseqElems(s, t[1..]);
      assert t == [t[0]] + t[1..];
    }
  }

  lemma {:induction false} SubseqDistinct<T>(s: seq<T>, t: seq<T>)
    requires IsSubseq(s, t)
    requires Distinct(t)
    ensures Distinct(s)
    decreases |t|
  {
    if |s| == 0 {
    } else if s[0] == t[0] && IsSubseq(s[1..], t[1..]) {
      SubseqDistinct(s[1..], t[1..]);
      SubseqElems(s[1..], t[1..]);
      assert t[0] !in t[1..];
      forall i, j | 0 <= i < j < |s| ensures s[i] != s[j] {
        if i > 0 {
          assert s[i] == s[1..][i - 1] && s[j] == s[1..][j - 1];
        } else {
          assert s[j] in Elems(s[1..]);
        }
      }
    } else {
      SubseqDistinct(s, t[1..]);
    }
  }

  /** A duplicate-free list has as many entries as elements. */
  lemma {:induction false} DistinctCard<T>(s: seq<T>)
    requires Distinct(s)
    ensures |Elems(s)| == |s|
    decreases |s|
  {
    if |s| > 0 {
      DistinctCard(s[1..]);
      assert Elems(s) == Elems(s[1..]) + {s[0]};
      assert s[0] !in Elems(s[1..]);
    }
  }

  lemma {:induction false} FilterKeepsAll<T(!new)>(s: seq<T>, p: T -> bool)
    requires forall x :: x in s ==> p(x)
    ensures Filter(s, p) == s
    decreases |s|
  {
    if |s| > 0 {
      FilterKeepsAll(s[1..], p);
      assert s == [s[0]] + s[1..];
    }
  }

  lemma {:induction false} FilterDropsAll<T(!new)>(s: seq<T>, p: T -> bool)
    requires forall x :: x in s ==> !p(x)
    ensures Filter(s, p) == []
    decreases |s|
  {
    if |s| > 0 {
      FilterDropsAll(s[1..], p);
    }
  }

  /** Removing an entry the filter rejects does not change the filter's result. */
  lemma {:induction false} FilterRemoveRejected<T(!new)>(xs: seq<T>, v: T, p: T -> bool)
    requires !p(v)
    ensures Filter(RemoveFirst(xs, v), p) == Filter(xs, p)
    decreases |xs|
  {
    if |xs| > 0 && xs[0] != v {
      FilterRemoveRejected(xs[1..], v, p);
      assert ([xs[0]] + RemoveFirst(xs[1..], v))[1..] == RemoveFirst(xs[1..], v);
    }
  }

  /** Filtering by a predicate and by its negation splits the entries. */
  lemma {:induction false} FilterSplitLength<T(!new)>(s: seq<T>, p: T -> bool, q: T -> bool)
    requires forall x :: q(x) == !p(x)
    ensures |Filter(s, p)| + |Filter(s, q)| == |s|
    decreases |s|
  {
    if |s| > 0 {
      FilterSplitLength(s[1..], p, q);
    }
  }

  lemma DistinctConcat<T>(a: seq<T>, b: seq<T>)
    requires Distinct(a) && Distinct(b)
    requires Elems(a) !! Elems(b)
    ensures Distinct(a + b)
  {
    var r := a + b;
    forall i, j | 0 <= i < j < |r|
      ensures r[i] != r[j]
    {
      if j < |a| {
      } else if i >= |a| {
        assert r[i] == b[i - |a|] && r[j] == b[j - |a|];
      } else {
        assert r[i] in Elems(a) && r[j] in Elems(b);
      }
    }
  }

  lemma ElemsConcat<T>(a: seq<T>, b: seq<T>)
    ensures Elems(a + b) == Elems(a) + Elems(b)
  {
  }

  /** Over duplicate-free `ks`, a subsequence is determined by its elements:
      there is only one way to list a set of keys in key order. */
  lemma {:induction false} SubseqUnique<T>(a: seq<T>, b: seq<T>, ks: seq<T>)
    requires IsSubseq(a, ks) && IsSubseq(b, ks)
    requires Distinct(ks)
    requires Elems(a) == Elems(b)
    ensures a == b
    decreases |ks|
  {
    if |ks| > 0 {
      var k := ks[0];
      var r := ks[1..];
      assert Distinct(r) by {
        forall i, j | 0 <= i < j < |r| ensures r[i] != r[j] {
          assert r[i] == ks[i + 1] && r[j] == ks[j + 1];
        }
      }
      assert k !in Elems(r) by {
        forall i | 0 <= i < |r| ensures r[i] != k {
          assert r[i] == ks[i + 1];
        }
      }
      if k in Elems(a) {
        HeadTaken(a, ks);
        HeadTaken(b, ks);
        SubseqElems(a[1..], r);
        SubseqElems(b[1..], r);
        assert a == [k] + a[1..] && b == [k] + b[1..];
        assert Elems(a) == {k} + Elems(a[1..]);
        assert Elems(b) == {k} + Elems(b[1..]);
        assert Elems(a[1..]) == Elems(b[1..]);
        SubseqUnique(a[1..], b[1..], r);
      } else {
        SkipHead(a, ks);
        SkipHead(b, ks);
        SubseqUnique(a, b, r);
      }
    } else {
      assert |a| == 0 && |b| == 0;
    }
  }

  lemma HeadTaken<T>(a: seq<T>, ks: seq<T>)
    requires IsSubseq(a, ks) && |ks| > 0
    requires ks[0] in Elems(a) && ks[0] !in Elems(ks[1..])
    ensures |a| > 0 && a[0] == ks[0] && IsSubseq(a[1..], ks[1..])
  {
    if !(|a| > 0 && a[0] == ks[0] && IsSubseq(a[1..], ks[1..])) {
      SubseqElems(a, ks[1..]);
    }
  }

  lemma SkipHead<T>(a: seq<T>, ks: seq<T>)
    requires IsSubseq(a, ks) && |ks| > 0
    requires ks[0] !in Elems(a)
    ensures IsSubseq(a, ks[1..])
  {
    if |a| > 0 {
      assert a[0] in Elems(a);
    }
  }

  lemma SubsetCard<T>(a: set<T>, b: set<T>)
    requires a <= b
    ensures |a| <= |b|
    ensures |a| == |b| ==> a == b
  {
    assert b == a + (b - a);
  }

  /** Filtering distributes over concatenation. */
  lemma {:induction false} FilterConcat<T(!new)>(a: seq<T>, b: seq<T>, p: T -> bool)
    ensures Filter(a + b, p) == Filter(a, p) + Filter(b, p)
    decreases |a|
  {
    if |a| > 0 {
      var ab := a + b;
      assert ab[0] == a[0] && ab[1..] == a[1..] + b;
      FilterConcat(a[1..], b, p);
      var head: seq<T> := if p(a[0]) then [a[0]] else [];
      assert Filter(ab, p) == head + Filter(ab[1..], p);
      assert Filter(a, p) == head + Filter(a[1..], p);
    } else {
      assert a + b == b;
    }
  }

  /** Taking one more `b` off a multiset difference: when `b` is no longer
      present the difference is unchanged. */
  lemma SubtractOneMore<T>(g: multiset<T>, a: multiset<T>, bs: multiset<T>, b: T)
    requires g == a - bs
    ensures (if b in g then g - multiset{b} else g) == a - (bs + multiset{b})
  {
  }
}

=== FILE: subsets.dfy ===
/** `generate_all_subsets`: the power set of the keys, enumerated by counting
    `i` from 0 to 2^n - 1. Bit `j` of `i` (bit 0 the least significant)
    selects key `n-1-j`, so the first key is the most significant bit and
    every subset lists its guests in key order. */
module Subsets {
  import opened Seqs

  function Pow2(n: nat): (r: nat)
    ensures r >= 1
  {
    if n == 0 then 1 else 2 * Pow2(n - 1)
  }

  /** `i` with its `m` lowest bits dropped (`i // 2**m` in Python). */
  function Shift(i: nat, m: nat): nat
  {
    if m == 0 then i else Shift(i / 2, m - 1)
  }

  /** Bit `m` of `i`. */
  predicate Bit(i: nat, m: nat)
  {
    Shift(i, m) % 2 == 1
  }

  /** The subset the inner loop builds for the number `i`: the last key is
      taken when the lowest bit is set, and the remaining keys are decided by
      the higher bits. */
  function Select<T>(ks: seq<T>, i: nat): (r: seq<T>)
    ensures |r| <= |ks|
    ensures forall x :: x in r ==> x in ks
    decreases |ks|
  {
    if |ks| == 0 then []
    else Select(ks[..|ks| - 1], i / 2) + (if i % 2 == 1 then [ks[|ks| - 1]] else [])
  }

  /** `[k] + s` for every `s` in `ss`, in order. */
  function PrependAll<T>(k: T, ss: seq<seq<T>>): (r: seq<seq<T>>)
    ensures |r| == |ss|
    ensures forall i :: 0 <= i < |ss| ==> r[i] == [k] + ss[i]
  {
    seq(|ss|, i requires 0 <= i < |ss| => [k] + ss[i])
  }

  /** The enumeration, characterised recursively: the subsets without the
      first key, then the same subsets with the first key in front. */
  function Pow<T>(ks: seq<T>): (r: seq<seq<T>>)
    ensures |r| == Pow2(|ks|)
    decreases |ks|
  {
    if |ks| == 0 then [[]]
    else
      var rest := Pow(ks[1..]);
      rest + PrependAll(ks[0], rest)
  }

  lemma {:induction false} ShiftStep(i: nat, m: nat)
    ensures Shift(i, m + 1) == Shift(i, m) / 2
    decreases m
  {
    if m > 0 {
      ShiftStep(i / 2, m - 1);
    }
  }

  lemma {:induction false} ShiftBelow(i: nat, m: nat)
    requires i < Pow2(m)
    ensures Shift(i, m) == 0
    decreases m
  {
    if m > 0 {
      ShiftBelow(i / 2, m - 1);
    }
  }

  lemma {:induction false} ShiftTop(i: nat, m: nat)
    requires Pow2(m) <= i < 2 * Pow2(m)
    ensures Shift(i, m) == 1
    decreases m
  {
    if m > 0 {
      ShiftTop(i / 2, m - 1);
    }
  }

  /** Peeling the first key: it is taken exactly when bit `|r|` is set. */
  lemma {:induction false} SelectCons<T>(k: T, r: seq<T>, i: nat)
    ensures Select([k] + r, i) == (if Bit(i, |r|) then [k] else []) + Select(r, i)
    decreases |r|
  {
    var ks := [k] + r;
    if |r| == 0 {
      assert ks[..0] == [];
    } else {
      var r' := r[..|r| - 1];
      assert ks[..|ks| - 1] == [k] + r';
      assert ks[|ks| - 1] == r[|r| - 1];
      SelectCons(k, r', i / 2);
      assert Shift(i, |r|) == Shift(i / 2, |r'|);
    }
  }

  /** Only the lowest `|r|` bits matter. */
  lemma {:induction false} SelectWrap<T>(r: seq<T>, i: nat)
    ensures Select(r, i + Pow2(|r|)) == Select(r, i)
    decreases |r|
  {
    if |r| > 0 {
      var r' := r[..|r| - 1];
      var p := Pow2(|r'|);
      assert (i + 2 * p) / 2 == i / 2 + p;
      assert (i + 2 * p) % 2 == i % 2;
      SelectWrap(r', i / 2);
    }
  }

  /** The counting enumeration and the recursive one agree entry by entry. */
  lemma {:induction false} SelectIsPow<T>(ks: seq<T>, i: nat)
    requires i < Pow2(|ks|)
    ensures Select(ks, i) == Pow(ks)[i]
    decreases |ks|
  {
    if |ks| == 0 {
    } else {
      var r := ks[1..];
      assert ks == [ks[0]] + r;
      var p := Pow2(|r|);
      SelectCons(ks[0], r, i);
      if i < p {
        ShiftBelow(i, |r|);
        SelectIsPow(r, i);
      } else {
        ShiftTop(i, |r|);
        SelectWrap(r, i - p);
        SelectIsPow(r, i - p);
      }
    }
  }

  /** Entry `i` contains key `k` exactly when bit `n-1-k` of `i` is set. */
  lemma {:induction false} EntryBits<T>(ks: seq<T>, i: nat, k: nat)
    requires Distinct(ks)
    requires i < Pow2(|ks|)
    requires k < |ks|
    ensures ks[k] in Pow(ks)[i] <==> Bit(i, |ks| - 1 - k)
    decreases |ks|
  {
    SelectIsPow(ks, i);
    SelectBits(ks, i, k);
  }

  lemma {:induction false} SelectBits<T>(ks: seq<T>, i: nat, k: nat)
    requires Distinct(ks)
    requires k < |ks|
    ensures ks[k] in Select(ks, i) <==> Bit(i, |ks| - 1 - k)
    decreases |ks|
  {
    var r := ks[1..];
    assert ks == [ks[0]] + r;
    SelectCons(ks[0], r, i);
    SelectSubseq(r, i);
    SubseqElems(Select(r, i), r);
    if k == 0 {
      assert ks[0] !in r;
      assert ks[0] !in Elems(Select(r, i));
    } else {
      assert ks[k] == r[k - 1];
      assert ks[k] != ks[0];
      SelectBits(r, i, k - 1);
    }
  }

  lemma {:induction false} SelectSubseq<T>(ks: seq<T>, i: nat)
    ensures IsSubseq(Select(ks, i), ks)
    decreases |ks|
  {
    if |ks| > 0 {
      var r := ks[1..];
      assert ks == [ks[0]] + r;
      SelectCons(ks[0], r, i);
      SelectSubseq(r, i);
      var t := Select(ks, i);
      assert ks[1..] == r;
      if Bit(i, |r|) {
        assert t[0] == ks[0] && t[1..] == Select(r, i);
      } else {
        assert t == Select(r, i);
      }
    }
  }

  /** Every entry is an order-preserving subsequence of the keys. */
  lemma {:induction false} PowEntriesAreSubseqs<T>(ks: seq<T>)
    ensures forall i :: 0 <= i < |Pow(ks)| ==> IsSubseq(Pow(ks)[i], ks)
  {
    forall i | 0 <= i < |Pow(ks)|
      ensures IsSubseq(Pow(ks)[i], ks)
    {
      SelectIsPow(ks, i);
      SelectSubseq(ks, i);
    }
  }

  /** Entry 0 is empty and the last entry is all the keys. */
  lemma {:induction false} PowEnds<T>(ks: seq<T>)
    ensures Pow(ks)[0] == []
    ensures Pow(ks)[|Pow(ks)| - 1] == ks
    decreases |ks|
  {
    if |ks| > 0 {
      PowEnds(ks[1..]);
      assert ks == [ks[0]] + ks[1..];
    }
  }

  /** Nothing is missed: every set of keys is the element set of some entry. */
  lemma {:induction false} PowComplete<T>(ks: seq<T>, s: set<T>)
    requires s <= Elems(ks)
    ensures exists i :: 0 <= i < |Pow(ks)| && Elems(Pow(ks)[i]) == s
    decreases |ks|
  {
    if |ks| == 0 {
      assert s == {};
      assert Elems(Pow(ks)[0]) == {};
    } else {
      var k := ks[0];
      var r := ks[1..];
      assert Elems(ks) == {k} + Elems(r) by {
        assert ks == [k] + r;
      }
      var rest := Pow(r);
      if k in s {
        PowComplete(r, s - {k});
        var j :| 0 <= j < |rest| && Elems(rest[j]) == s - {k};
        assert Pow(ks)[|rest| + j] == [k] + rest[j];
        assert Elems([k] + rest[j]) == {k} + Elems(rest[j]);
      } else {
        PowComplete(r, s);
        var j :| 0 <= j < |rest| && Elems(rest[j]) == s;
        assert Pow(ks)[j] == rest[j];
      }
    }
  }

  /** Nothing is repeated: for duplicate-free keys, distinct entries have
      distinct element sets. */
  lemma {:induction false} PowUnique<T>(ks: seq<T>, i: nat, j: nat)
    requires Distinct(ks)
    requires i < j < |Pow(ks)|
    ensures Elems(Pow(ks)[i]) != Elems(Pow(ks)[j])
    decreases |ks|
  {
    var k := ks[0];
    var r := ks[1..];
    var rest := Pow(r);
    var p := |rest|;
    SubseqDistinct(r, ks) by {
      assert ks == [k] + r;
      assert IsSubseq(r, r) by { SubseqRefl(r); }
    }
    PowEntriesAreSubseqs(r);
    assert k !in r;
    if j < p {
      PowUnique(r, i, j);
    } else if p <= i {
      PowUnique(r, i - p, j - p);
      assert Elems(Pow(ks)[i]) == {k} + Elems(rest[i - p]);
      assert Elems(Pow(ks)[j]) == {k} + Elems(rest[j - p]);
      SubseqElems(rest[i - p], r);
      SubseqElems(rest[j - p], r);
    } else {
      assert k in Pow(ks)[j];
      SubseqElems(rest[i], r);
      assert k !in Elems(Pow(ks)[i]);
    }
  }

  lemma {:induction false} SubseqRefl<T>(s: seq<T>)
    ensures IsSubseq(s, s)
    decreases |s|
  {
    if |s| > 0 {
      SubseqRefl(s[1..]);
    }
  }

  /** The counting loop of the source: for each `i`, the inner loop reads
      the `n` lowest bits of `i`, least significant first, prepending key
      `n-1-j` when bit `j` is set. */
  method GenerateAllSubsets<T>(keys: seq<T>) returns (all: seq<seq<T>>)
    ensures |all| == Pow2(|keys|)
    ensures forall i :: 0 <= i < |all| ==> all[i] == Select(keys, i)
    ensures all == Pow(keys)
  {
    var n := |keys|;
    var total := Pow2(n);
    all := [];
    var i := 0;
    while i < total
      invariant 0 <= i <= total
      invariant |all| == i
      invariant forall m :: 0 <= m < i ==> all[m] == Select(keys, m)
    {
      var num := i;
      var sub: seq<T> := [];
      var j := 0;
      while j < n
        invariant 0 <= j <= n
        invariant num == Shift(i, j)
        invariant sub == Select(keys[n - j..], i)
      {
        assert keys[n - 1 - j..] == [keys[n - 1 - j]] + keys[n - j..];
        SelectCons(keys[n - 1 - j], keys[n - j..], i);
        if num % 2 == 1 {
          sub := [keys[n - 1 - j]] + sub;
        }
        ShiftStep(i, j);
        num := num / 2;
        j := j + 1;
      }
      assert keys[n - j..] == keys;
      all := all + [sub];
      i := i + 1;
    }
    forall m | 0 <= m < |all|
      ensures all[m] == Pow(keys)[m]
    {
      SelectIsPow(keys, m);
    }
  }
}
